=== FILE: README.md ===
# DMARC report viewer: the HTML report generator

This project models the heart of the DMARC aggregate report viewer's `generator.ts`. The
generator takes the parsed XML of an aggregate report and builds one HTML document. The
document has three parts:

- a "Report Metadata" table;
- a "Policy Published" table;
- a "Records" table with one row per DKIM entry of each `record`, or one N/A row when a
  record has no DKIM entry.

Rows are numbered by record, from 1. A record's rows are highlighted from its SPF and DKIM
results:

- green when SPF and every DKIM entry pass;
- yellow when at least one of them passes;
- no highlight otherwise.

Missing leaf elements read as the empty string. A missing container makes the generator
give up and return the empty string. The containers it dereferences are:

- `report_metadata` and `policy_published`;
- a record's `row` and `auth_results`;
- the `spf` inside the first `auth_results`.

The model is in five modules:

- `XmlTree` (`xml_tree.dfy`): the parsed element tree and the two lookups the generator
  uses, the first child with a name and all children with a name, plus the text of a
  node that may be absent.
- `Classification` (`classification.dfy`): the every/some DKIM tests and the row
  highlight.
- `ReportModel` (`report_model.dfy`): what a report yields as values:
  - the metadata and policy;
  - the fields of each record;
  - the rows of all records, or nothing when a container is missing.
- `HtmlRender` (`html_render.dfy`): the exact text the generator emits for those values.
- `Formatter` (`formatter.dfy`): the generator itself as imperative code. It appends the
  text piece by piece, with loops over the records and the DKIM entries. It is proved to
  produce exactly `HtmlRender.ReportHtml`.

The reverse DNS lookup is a parameter, `lookup: (nat, string) -> Option<string>`. It is
called once per record with the record number and the source IP. Each record thus has
an answer of its own, and two records with the same IP may get different host names.
`None` stands for the source's `null`, which prints as `null` in the hostname column.

## Model

| member | source | states |
|---|---|---|
| XmlTree.TextContent | generator.ts:26-28 | a present node with content gives that content; an absent node or one without content gives "" |
| XmlTree.FindChild | generator.ts:59-61 | `children.find` by name: None exactly when no child has the name, and otherwise the child found has the name |
| XmlTree.FindChildAt | generator.ts:115 | when index i holds the first child with the name, the lookup returns that child |
| XmlTree.FindChildIndex | generator.ts:124-126 | when some child has the name, the lookup returns the child at an index with no earlier child of that name |
| XmlTree.FilterChildren | generator.ts:110-112 | `children.filter` by name: no longer than the input, and every element has the name |
| XmlTree.FilterChildrenMembers | generator.ts:135-137 | a node is kept exactly when it is a child and has the name |
| XmlTree.FilterChildrenExactly | generator.ts:135-137 | the kept nodes are exactly the children with the name, for every node at once |
| XmlTree.FilterChildrenAppend | generator.ts:110-112 | filtering distributes over concatenation, so kept children stay in document order |
| XmlTree.FilterChildrenSingle | generator.ts:135-137 | a single child is kept exactly when it has the name |
| XmlTree.FindChildIsFirstOfFilter | generator.ts:124-137 | the first child found is the head of the filtered children, and None when the filter is empty |
| Classification.DkimResult | generator.ts:143-145 | a DKIM entry without a `result` child reads as "" |
| Classification.EveryDkimPasses | generator.ts:141-146 | true exactly when every DKIM entry's result is "pass" (so true over none) |
| Classification.SomeDkimPasses | generator.ts:151-156 | true exactly when some DKIM entry's result is "pass" (so false over none) |
| Classification.Classify | generator.ts:138-159 | green iff SPF passes and all DKIM entries pass; yellow iff something passes but not green; plain iff nothing passes |
| Classification.StyleAttribute | generator.ts:138-159 | the attribute is empty exactly for an unhighlighted row |
| Classification.ClassifyWithoutDkim | generator.ts:139-159 | a record without DKIM entries is green when SPF passes and plain otherwise |
| Classification.SpfPassWithFailingDkimIsYellow | generator.ts:139-158 | a passing SPF result with one failing DKIM entry gives yellow |
| Classification.DkimPasses | generator.ts:143-145 | the `=== "pass"` test on an entry's result; an entry without a `result` child never passes |
| Classification.ClassifyAppend | generator.ts:141-156 | one more DKIM entry keeps green iff it passes, and keeps plain iff it fails |
| ReportModel.ChildText | generator.ts:64-66 | a leaf that is missing reads as "" |
| ReportModel.ChildTextOfFirst | generator.ts:116-118 | the text read for a name is the content of the first child with that name |
| ReportModel.ExtractMetadata | generator.ts:62-78 | each of the four metadata values is "" when its leaf is missing |
| ReportModel.ExtractPolicy | generator.ts:84-104 | each of the six policy values is "" when its leaf is missing |
| ReportModel.DkimColumnsOf | generator.ts:162-170 | the three DKIM cells of an entry; a missing `domain`, `result` or `selector` leaf prints as an empty cell |
| ReportModel.DkimResultCellShowsPass | generator.ts:139-181 | a row's DKIM Result cell reads "pass" exactly when its entry passes, so every DKIM row of a green record shows "pass" |
| ReportModel.ExtractRecord | generator.ts:115-137 | a complete record has a `row`, an `auth_results` and an `spf` in the first `auth_results`; a missing `source_ip` or `count` leaf of the first `row`, or a missing `domain` or `result` leaf of that `spf`, reads as ""; its DKIM entries are the `dkim` children of the first `auth_results`, in document order, and a node is an entry exactly when it is such a child |
| ReportModel.SourceIpOfFirst | generator.ts:115-118 | a record's source IP is the content of the first `source_ip` leaf of its first `row` |
| ReportModel.SpfResultOfFirst | generator.ts:124-133 | a record's SPF result, which decides its highlight, is the content of the first `result` leaf of the first `spf` in its first `auth_results` |
| ReportModel.ExtractRecordFailsIffIncomplete | generator.ts:115-133 | a record yields no fields exactly when its `row`, its `auth_results`, or the `spf` in the first `auth_results` is missing |
| ReportModel.RowsOf | generator.ts:160-196 | one row per DKIM entry in order, or one N/A row; all rows share the record's number, highlight, IP, hostname, count and SPF columns |
| ReportModel.RecordRows | generator.ts:115-196 | one record's iteration fails exactly when the record is incomplete; otherwise it yields at least one row, all numbered with the record number |
| ReportModel.Records | generator.ts:110-112 | the records are the root's children named `record`: a node is one exactly when it is such a child |
| ReportModel.AllRows | generator.ts:113-198 | the record loop's rows: when it succeeds there are at least as many rows as records, and every row number lies between 1 and the record count |
| ReportModel.AllRowsFailIffSomeRecordFails | generator.ts:114-198 | the record loop fails exactly when some record is incomplete |
| ReportModel.AllRowsStep | generator.ts:114-198 | one more loop iteration appends the next record's rows, numbered by its position |
| ReportModel.AllRowsLast | generator.ts:114-198 | the rows of n records are those of the first n-1, then at least one row numbered n with the last record's highlight |
| ReportModel.Extract | generator.ts:55-198 | no tree gives no report; a report implies `report_metadata` and `policy_published` are present, has at least one row per record, and numbers rows within 1..record count |
| ReportModel.ExtractFailsIffMissingContainer | generator.ts:55-204 | extraction fails exactly when there is no tree or some dereferenced container is missing |
| ReportModel.AllRowsCount | generator.ts:160-197 | the number of rows is the sum over records of max(1, DKIM entries), so at least the number of records |
| ReportModel.NumberedOneToAt | generator.ts:113-197 | each row of one more record keeps its number bounds and its step from the row before |
| ReportModel.NumberedOneToExtend | generator.ts:113-197 | appending rows numbered n to rows numbered 1..n-1 gives rows numbered 1..n |
| ReportModel.AllRowsNumbering | generator.ts:113-197 | record numbers start at 1, end at the record count, and never decrease or skip a number |
| ReportModel.ColorsFollowAt | generator.ts:138-196 | each row of one more record carries the colour of the record its number designates |
| ReportModel.ColorsFollowExtend | generator.ts:138-196 | appending a record's rows keeps every row's colour that of its record |
| ReportModel.AllRowsColors | generator.ts:138-196 | every row carries the highlight of the record its number designates |
| ReportModel.EveryRecordNumbered | generator.ts:113-197 | every record number from 1 to the record count appears on some row |
| HtmlRender.NatToString | generator.ts:173 | the record number prints as a non-empty digit string with no leading zero |
| HtmlRender.NatToStringRoundTrip | generator.ts:173 | the printed record number reads back as the number |
| HtmlRender.HostnameText | generator.ts:175 | a found host name prints as itself; a missing one prints as `null` |
| HtmlRender.RenderMetadata | generator.ts:62-78 | the metadata table opens with its heading and `<table>` and ends with `</table>` |
| HtmlRender.RenderPolicy | generator.ts:84-104 | the policy table opens with its heading and `<table>` and ends with `</table>` |
| HtmlRender.RenderRow | generator.ts:172-195 | a row opens with `<tr ` and its highlight attribute and ends with `</tr>` |
| HtmlRender.RowCells | generator.ts:172-195 | nine cells in the column order of the header: the record number as digits that read back as it, source IP, host name (or `null`), count, SPF domain, SPF result, then the three DKIM cells or three `N/A` |
| HtmlRender.ConcatMapAppend | generator.ts:114-198 | the text of the items concatenates over concatenated items |
| HtmlRender.RenderRowsExtend | generator.ts:114-198 | appending more rows' text continues a rendering |
| HtmlRender.RenderRowsStep | generator.ts:161-183 | appending the next DKIM row continues the rendering of the rows so far |
| HtmlRender.RenderRowsSingle | generator.ts:184-195 | the single N/A row renders as that row's text |
| HtmlRender.ReportHtml | generator.ts:41-204 | the output is "" exactly when there is no tree or a dereferenced container is missing |
| HtmlRender.ReportHtmlOfParts | generator.ts:55-200 | with the metadata, policy and complete records present, the output is the rendering of the report they yield |
| HtmlRender.ReportHtmlFrame | generator.ts:41-204 | the output is "" exactly when a container is missing; otherwise it starts with the fixed header and ends with `</table></body></html>` |
| Formatter.AppendRecordRows | generator.ts:160-196 | the DKIM loop appends exactly the rendering of the record's rows |
| Formatter.AppendRecord | generator.ts:114-197 | one record's iteration fails exactly when the record is incomplete, and otherwise appends its rows' rendering |
| Formatter.AppendRecords | generator.ts:110-198 | the record loop fails exactly when some record does, and otherwise appends all rows' rendering, numbered from 1 |
| Formatter.FormatDmarcReportAsHtml | generator.ts:41-205 | the generator's output is exactly the rendering of the extracted report, or "" when a container is missing |

## Left out

- The XML parser: the input is the parse result as an `Option<Node>`, and `None` stands for a document the parser rejects. A tree without a root is also `None`.
- `reverseDnsLookup`: the host name query is a caller-supplied function of the record number and the source IP. The `nslookup` process and its output parsing are not modelled. The model's `None` covers the source's `null`, which an answer without a `name =` line gives.
- `outputToHtml` and `main`: file and console I/O.
- `async`/`await`: the model is sequential.
- The `console.error` logging in the catch block: only the empty-string result is modelled.
- Errors other than a missing container: in the source every thrown exception ends in "", but the model only knows the dereferences of missing elements. In particular, when `nslookup` cannot be started (no binary, no permission to run it), the lookup throws and the whole report becomes ""; the model's lookup always answers.
- The row loop bodies are split into the methods `AppendRecord` and `AppendRecordRows`; the order of appends is the same as in the source.
- The lookup is made before `auth_results` is checked, as in the source. The model has no side effects, so a failing record's lookup cannot change the outcome.
- ReportModel.ExtractMetadata: states only that missing leaves read as ""; the present case is `ReportModel.ChildTextOfFirst`.
- ReportModel.ExtractPolicy: states only that missing leaves read as ""; the present case is `ReportModel.ChildTextOfFirst`.
- HtmlRender.NatToString: the record number is an unbounded natural; the source's `number` loses exactness above 2^53, which a report never reaches.
- HTML escaping: the source inserts text unescaped, and so does the model; no property about escaping is stated.

=== FILE: classification.dfy ===
/** How a record's row is highlighted, from its SPF result and its DKIM results. */
module Classification {
  import opened Wrappers
  import opened XmlTree

  /** The text of a DKIM entry's `result` child; "" when it has none. */
  function DkimResult(dkim: Node): (s: string)
    ensures NoneNamed(dkim.children, "result") ==> s == ""
  {
    TextContent(FindChild(dkim.children, "result"))
  }

  /** A DKIM entry passes when its result reads "pass"; one without a `result` child never does. */
  predicate DkimPasses(dkim: Node)
    ensures DkimPasses(dkim) ==> !NoneNamed(dkim.children, "result")
  {
    DkimResult(dkim) == "pass"
  }

  /** Whether every DKIM entry passes; true over no entries. */
  function EveryDkimPasses(dkims: seq<Node>): (b: bool)
    ensures b <==> forall i :: 0 <= i < |dkims| ==> DkimPasses(dkims[i])
  {
    if |dkims| == 0 then true else DkimPasses(dkims[0]) && EveryDkimPasses(dkims[1..])
  }

  /** Whether at least one DKIM entry passes; false over no entries. */
  function SomeDkimPasses(dkims: seq<Node>): (b: bool)
    ensures b <==> exists i :: 0 <= i < |dkims| && DkimPasses(dkims[i])
  {
    if |dkims| == 0 then false else DkimPasses(dkims[0]) || SomeDkimPasses(dkims[1..])
  }

  /** The highlight of a record's rows. */
  datatype RowColor = Green | Yellow | Plain

  /** Green when SPF and every DKIM entry pass; yellow when something passes but not
      everything; plain when nothing passes. Exactly one of the three holds. */
  function Classify(spfResult: string, dkims: seq<Node>): (c: RowColor)
    ensures c == Green <==>
      spfResult == "pass" && forall i :: 0 <= i < |dkims| ==> DkimPasses(dkims[i])
    ensures c == Yellow <==>
      (spfResult == "pass" || exists i :: 0 <= i < |dkims| && DkimPasses(dkims[i])) &&
      !(spfResult == "pass" && forall i :: 0 <= i < |dkims| ==> DkimPasses(dkims[i]))
    ensures c == Plain <==>
      spfResult != "pass" && forall i :: 0 <= i < |dkims| ==> !DkimPasses(dkims[i])
  {
    if spfResult == "pass" && EveryDkimPasses(dkims) then
      Green
    else if spfResult == "pass" || SomeDkimPasses(dkims) then
      Yellow
    else
      Plain
  }

  /** The attribute text placed in a row's opening `tr` tag. */
  function StyleAttribute(c: RowColor): (s: string)
    ensures s == "" <==> c == Plain
  {
    match c
    case Green => "style=\"background-color: green;\""
    case Yellow => "style=\"background-color: yellow;\""
    case Plain => ""
  }

  /** A record without DKIM entries is green exactly when SPF passes, and plain otherwise. */
  lemma ClassifyWithoutDkim(spfResult: string)
    ensures Classify(spfResult, []) == if spfResult == "pass" then Green else Plain
  {
  }

  /** A passing SPF result never leaves a record plain; one failing DKIM entry makes it yellow. */
  lemma {:induction false} SpfPassWithFailingDkimIsYellow(spfResult: string, dkims: seq<Node>, k: nat)
    requires spfResult == "pass"
    requires k < |dkims| && !DkimPasses(dkims[k])
    ensures Classify(spfResult, dkims) == Yellow
  {
  }

  /** Appending an entry can only lower the highlight from green, and only raise it from plain. */
  lemma {:induction false} ClassifyAppend(spfResult: string, dkims: seq<Node>, d: Node)
    ensures Classify(spfResult, dkims + [d]) == Green <==>
      Classify(spfResult, dkims) == Green && DkimPasses(d)
    ensures Classify(spfResult, dkims + [d]) == Plain <==>
      Classify(spfResult, dkims) == Plain && !DkimPasses(d)
  {
    var all := dkims + [d];
    assert all[|dkims|] == d;
    assert forall i :: 0 <= i < |dkims| ==> all[i] == dkims[i];
  }
}

=== FILE: formatter.dfy ===
/** The report generator itself: walks the parsed report once, appending the HTML text
    table by table and row by row, and gives up with the empty string when a container
    it dereferences is missing. */
module Formatter {
  import opened Wrappers
  import opened XmlTree
  import opened Classification
  import opened ReportModel
  import opened HtmlRender

  /** Appends the rows of one complete record to `html`: one row per DKIM entry, in
      document order, or a single N/A row when there is none, all with the record's
      highlight and number. */
  method AppendRecordRows(html: string, f: RecordFields, recordNo: nat, hostname: Option<string>)
    returns (out: string)
    ensures out == html + RenderRows(RowsOf(f, recordNo, hostname))
  {
    var rowColor := Classify(f.spfResult, f.dkims);
    ghost var recordRows := RowsOf(f, recordNo, hostname);
    out := html;
    if |f.dkims| > 0 {
      for j := 0 to |f.dkims|
        invariant out == html + RenderRows(recordRows[..j])
      {
        var dkim := f.dkims[j];
        var dkimDomain := ChildText(dkim, "domain");
        var dkimResult := ChildText(dkim, "result");
        var dkimSelector := ChildText(dkim, "selector");
        var newRow := Row(rowColor, recordNo, f.sourceIp, hostname, f.count, f.spfDomain, f.spfResult,
                          Dkim(dkimDomain, dkimResult, dkimSelector));
        assert newRow.dkim == DkimColumnsOf(dkim);
        assert newRow == recordRows[j];
        RenderRowsStep(html, recordRows, j);
        out := out + RenderRow(newRow);
      }
      assert recordRows[..|f.dkims|] == recordRows;
    } else {
      var newRow := Row(rowColor, recordNo, f.sourceIp, hostname, f.count, f.spfDomain, f.spfResult,
                        NotApplicable);
      assert newRow == recordRows[0];
      RenderRowsSingle(html, recordRows);
      out := out + RenderRow(newRow);
    }
  }

  /** Appends the rows of one `record` to `html`; None when the record lacks its `row`,
      its `auth_results` or the `spf` inside them, where the generator fails. */
  method AppendRecord(html: string, record: Node, recordNo: nat, lookup: HostLookup)
    returns (out: Option<string>)
    ensures out.None? <==> RecordRows(record, recordNo, lookup).None?
    ensures out.Some? ==> out.value == html + RenderRows(RecordRows(record, recordNo, lookup).value)
  {
    var row := FindChild(record.children, "row");
    if row.None? {
      return None;
    }
    var sourceIp := ChildText(row.value, "source_ip");
    var hostname := lookup(recordNo, sourceIp);
    var count := ChildText(row.value, "count");

    var authResults := FindChild(record.children, "auth_results");
    if authResults.None? {
      return None;
    }
    var spf := FindChild(authResults.value.children, "spf");
    if spf.None? {
      return None;
    }
    var spfDomain := ChildText(spf.value, "domain");
    var spfResult := ChildText(spf.value, "result");
    var dkims := FilterChildren(authResults.value.children, "dkim");

    var text := AppendRecordRows(html, RecordFields(sourceIp, count, spfDomain, spfResult, dkims), recordNo, hostname);
    out := Some(text);
  }

  /** Appends the rows of the records in order, numbering them from 1; None as soon as
      a record lacks a container. */
  method AppendRecords(html: string, records: seq<Node>, lookup: HostLookup) returns (out: Option<string>)
    ensures out.None? <==> AllRows(records, lookup).None?
    ensures out.Some? ==> out.value == html + RenderRows(AllRows(records, lookup).value)
  {
    var text := html;
    var recordNo := 1;
    ghost var rows: seq<Row> := [];
    for i := 0 to |records|
      invariant recordNo == i + 1
      invariant AllRows(records[..i], lookup) == Some(rows)
      invariant text == html + RenderRows(rows)
    {
      var next := AppendRecord(text, records[i], recordNo, lookup);
      if next.None? {
        AllRowsFailIffSomeRecordFails(records, lookup);
        return None;
      }
      ghost var recordRows := RecordRows(records[i], recordNo, lookup).value;
      RenderRowsExtend(html, rows, recordRows);
      AllRowsStep(records, i, lookup, rows, recordRows);
      text := next.value;
      rows := rows + recordRows;
      recordNo := recordNo + 1;
    }
    assert records[..|records|] == records;
    out := Some(text);
  }

  /** Formats a parse result as the HTML summary. `lookup` answers each record's reverse DNS
      query, given the record number and its source IP. The text is the rendering of what the report
      holds, or the empty string when a required container is missing. */
  method FormatDmarcReportAsHtml(doc: Option<Node>, lookup: HostLookup) returns (html: string)
    ensures html == ReportHtml(doc, lookup)
  {
    html := HEADER;
    if doc.None? {
      return "";
    }
    var root := doc.value;

    var reportMetadata := FindChild(root.children, "report_metadata");
    if reportMetadata.None? {
      return "";
    }
    html := html + RenderMetadata(ExtractMetadata(reportMetadata.value));

    var policyPublished := FindChild(root.children, "policy_published");
    if policyPublished.None? {
      return "";
    }
    html := html + RenderPolicy(ExtractPolicy(policyPublished.value));

    html := html + RECORDS_HEADER;
    var records := FilterChildren(root.children, "record");
    var withRows := AppendRecords(html, records, lookup);
    if withRows.None? {
      return "";
    }
    ghost var report := Report(ExtractMetadata(reportMetadata.value), ExtractPolicy(policyPublished.value),
                               AllRows(records, lookup).value);
    ReportHtmlOfParts(doc, lookup, reportMetadata.value, policyPublished.value, report.rows);
    RenderReportInOrder(report);
    html := withRows.value + FOOTER;
  }
}

=== FILE: html_render.dfy ===
/** The HTML text the report generator emits for an extracted report. */
module HtmlRender {
  import opened Wrappers
  import opened XmlTree
  import opened Classification
  import opened ReportModel

  /** The document head, style sheet and page title every successful report starts with. */
  const HEADER: string :=
    "<html>\n<head>\n<title>DMARC Report</title>\n<style>\n" +
    "  body { font-family: Arial, sans-serif; }\n" +
    "  table { border-collapse: collapse; width: 100%; }\n" +
    "  th, td { border: 1px solid #dddddd; text-align: left; padding: 8px; }\n" +
    "  th { background-color: #f2f2f2; }\n" +
    "</style>\n</head>\n<body>\n<h1>DMARC Report Summary</h1>"

  /** The heading and column titles of the records table. */
  const RECORDS_HEADER: string :=
    "<h2>Records</h2>\n    <table>\n    <tr><th>Record No</th><th>Source IP</th><th>Hostname</th>" +
    "<th>Count</th><th>SPF Domain</th><th>SPF Result</th><th>DKIM Domain</th><th>DKIM Result</th>" +
    "<th>DKIM Selector</th></tr>"

  /** What closes the records table and the document. */
  const FOOTER: string := "</table></body></html>"

  predicate IsDigits(s: string)
  {
    forall i :: 0 <= i < |s| ==> '0' <= s[i] <= '9'
  }

  /** The decimal numeral of n, as a template literal prints an integer: no sign and
      no leading zero. */
  function NatToString(n: nat): (s: string)
    ensures |s| >= 1 && IsDigits(s)
    ensures s[0] == '0' ==> n == 0
    decreases n
  {
    if n < 10 then [(48 + n) as char] else NatToString(n / 10) + [(48 + n % 10) as char]
  }

  /** The number a string of decimal digits denotes. */
  function DigitsValue(s: string): nat
    requires IsDigits(s)
  {
    if |s| == 0 then 0 else DigitsValue(s[..|s| - 1]) * 10 + (s[|s| - 1] as int - 48)
  }

  /** The numeral printed for a record number reads back as that number. */
  lemma {:induction false} NatToStringRoundTrip(n: nat)
    ensures DigitsValue(NatToString(n)) == n
    decreases n
  {
    if n >= 10 {
      NatToStringRoundTrip(n / 10);
      var s := NatToString(n);
      assert s[..|s| - 1] == NatToString(n / 10);
    }
  }

  /** A null host name prints as "null". */
  function HostnameText(hostname: Option<string>): (s: string)
    ensures hostname.Some? ==> s == hostname.value
    ensures hostname.None? ==> s == "null"
  {
    match hostname
    case None => "null"
    case Some(h) => h
  }

  /** Table cells, each on a line of its own. */
  function Cells(texts: seq<string>): string
  {
    if |texts| == 0 then "" else "<td>" + texts[0] + "</td>\n" + Cells(texts[1..])
  }

  /** Rows of a two-column table: a heading cell and a data cell, each row on a line of its own. */
  function LabelledRows(pairs: seq<(string, string)>): string
  {
    if |pairs| == 0 then "" else "<tr><th>" + pairs[0].0 + "</th><td>" + pairs[0].1 + "</td></tr>\n" + LabelledRows(pairs[1..])
  }

  /** The opening of the metadata table. */
  const METADATA_OPEN: string := "<h2>Report Metadata</h2>\n<table>\n"

  /** The opening of the policy table. */
  const POLICY_OPEN: string := "<h2>Policy Published</h2>\n<table>\n"

  /** What closes a two-column table. */
  const TABLE_CLOSE: string := "</table>"

  /** The metadata table: its heading, one labelled row per value, then the close. */
  function RenderMetadata(m: Metadata): (s: string)
    ensures |s| >= |METADATA_OPEN| + |TABLE_CLOSE|
    ensures s[..|METADATA_OPEN|] == METADATA_OPEN && s[|s| - |TABLE_CLOSE|..] == TABLE_CLOSE
  {
    METADATA_OPEN +
    LabelledRows([("Organization", m.orgName), ("Email", m.email),
                  ("Extra Contact Info", m.extraContactInfo), ("Report ID", m.reportId)]) +
    TABLE_CLOSE
  }

  /** The policy table: its heading, one labelled row per value, then the close. */
  function RenderPolicy(p: Policy): (s: string)
    ensures |s| >= |POLICY_OPEN| + |TABLE_CLOSE|
    ensures s[..|POLICY_OPEN|] == POLICY_OPEN && s[|s| - |TABLE_CLOSE|..] == TABLE_CLOSE
  {
    POLICY_OPEN +
    LabelledRows([("Domain", p.domain), ("ADKIM", p.adkim), ("ASPF", p.aspf), ("P", p.p),
                  ("SP", p.sp), ("PCT", p.pct)]) +
    TABLE_CLOSE
  }

  /** The nine cell texts of a row, in column order. */
  function RowCells(row: Row): (cells: seq<string>)
    ensures |cells| == 9
    ensures IsDigits(cells[0]) && DigitsValue(cells[0]) == row.recordNo
    ensures cells[1] == row.sourceIp
    ensures row.hostname.Some? ==> cells[2] == row.hostname.value
    ensures row.hostname.None? ==> cells[2] == "null"
    ensures cells[3] == row.count && cells[4] == row.spfDomain && cells[5] == row.spfResult
    ensures row.dkim.NotApplicable? ==> cells[6..] == ["N/A", "N/A", "N/A"]
    ensures row.dkim.Dkim? ==> cells[6..] == [row.dkim.domain, row.dkim.result, row.dkim.selector]
  {
    NatToStringRoundTrip(row.recordNo);
    var dkimCells :=
      match row.dkim
      case NotApplicable => ["N/A", "N/A", "N/A"]
      case Dkim(domain, result, selector) => [domain, result, selector];
    [NatToString(row.recordNo), row.sourceIp, HostnameText(row.hostname), row.count, row.spfDomain,
     row.spfResult] + dkimCells
  }

  /** One table row: the highlight in the opening tag, then the nine cells. */
  function RenderRow(row: Row): (s: string)
    ensures |s| >= |"<tr " + StyleAttribute(row.color) + ">\n"| + |"</tr>"|
    ensures s[..|"<tr " + StyleAttribute(row.color) + ">\n"|] == "<tr " + StyleAttribute(row.color) + ">\n"
    ensures s[|s| - |"</tr>"|..] == "</tr>"
  {
    "<tr " + StyleAttribute(row.color) + ">\n" + Cells(RowCells(row)) + "</tr>"
  }

  /** The texts of the items one after the other. */
  function ConcatMap<T>(xs: seq<T>, f: T -> string): string
  {
    if |xs| == 0 then "" else ConcatMap(xs[..|xs| - 1], f) + f(xs[|xs| - 1])
  }

  /** Concatenating the texts distributes over concatenation of the items. */
  lemma {:induction false} ConcatMapAppend<T>(a: seq<T>, b: seq<T>, f: T -> string)
    ensures ConcatMap(a + b, f) == ConcatMap(a, f) + ConcatMap(b, f)
    decreases |b|
  {
    if |b| == 0 {
      assert a + b == a;
    } else {
      var b' := b[..|b| - 1];
      assert (a + b)[..|a + b| - 1] == a + b';
      ConcatMapAppend(a, b', f);
    }
  }

  /** The rows one after the other. */
  function RenderRows(rows: seq<Row>): string
  {
    ConcatMap(rows, RenderRow)
  }

  /** Appending the text of more rows to a rendering continues that rendering. */
  lemma RenderRowsExtend(prefix: string, done: seq<Row>, more: seq<Row>)
    ensures (prefix + RenderRows(done)) + RenderRows(more) == prefix + RenderRows(done + more)
  {
    ConcatMapAppend(done, more, RenderRow);
    AppendAssociative(prefix, RenderRows(done), RenderRows(more));
  }

  /** Appending the text of the next row continues the rendering of a prefix of rows. */
  lemma RenderRowsStep(text: string, rows: seq<Row>, j: nat)
    requires j < |rows|
    ensures (text + RenderRows(rows[..j])) + RenderRow(rows[j]) == text + RenderRows(rows[..j + 1])
  {
    assert rows[..j + 1][..j] == rows[..j];
    AppendAssociative(text, RenderRows(rows[..j]), RenderRow(rows[j]));
  }

  /** A single row renders as that row's text. */
  lemma RenderRowsSingle(text: string, rows: seq<Row>)
    requires |rows| == 1
    ensures text + RenderRow(rows[0]) == text + RenderRows(rows)
  {
    assert rows[..0] == [];
    assert ConcatMap(rows[..0], RenderRow) == "";
    assert RenderRows(rows) == "" + RenderRow(rows[0]);
    assert "" + RenderRow(rows[0]) == RenderRow(rows[0]);
  }

  /** The text of a concatenation starts with its first part and ends with its last. */
  lemma FramedBy(head: string, middle: string, tail: string)
    ensures (head + middle + tail)[..|head|] == head
    ensures (head + middle + tail)[|head + middle + tail| - |tail|..] == tail
  {
  }

  /** The three tables between the header and the closing tags. */
  function ReportBody(r: Report): string
  {
    RenderMetadata(r.metadata) + RenderPolicy(r.policy) + RECORDS_HEADER + RenderRows(r.rows)
  }

  function RenderReport(r: Report): string
  {
    HEADER + ReportBody(r) + FOOTER
  }

  /** Concatenation regroups freely; stated for the verifier, which does not regroup
      long concatenations on its own. */
  lemma AppendAssociative<T>(a: seq<T>, b: seq<T>, c: seq<T>)
    ensures (a + b) + c == a + (b + c)
  {
  }

  /** The report text as the generator appends it, piece after piece. */
  lemma RenderReportInOrder(r: Report)
    ensures RenderReport(r) ==
      HEADER + RenderMetadata(r.metadata) + RenderPolicy(r.policy) + RECORDS_HEADER + RenderRows(r.rows) + FOOTER
  {
    var h, m, p, t, rs := HEADER, RenderMetadata(r.metadata), RenderPolicy(r.policy), RECORDS_HEADER, RenderRows(r.rows);
    AppendAssociative(h, m, p);
    AppendAssociative(h, m + p, t);
    AppendAssociative(m, p, t);
    AppendAssociative(h, m + p + t, rs);
  }

  /** The output when the report tree has its metadata, its policy and complete records:
      the pieces in the order the generator appends them. */
  lemma ReportHtmlOfParts(doc: Option<Node>, lookup: HostLookup, m: Node, p: Node, rows: seq<Row>)
    requires doc.Some?
    requires FindChild(doc.value.children, "report_metadata") == Some(m)
    requires FindChild(doc.value.children, "policy_published") == Some(p)
    requires AllRows(FilterChildren(doc.value.children, "record"), lookup) == Some(rows)
    ensures ReportHtml(doc, lookup) == RenderReport(Report(ExtractMetadata(m), ExtractPolicy(p), rows))
  {
    assert Extract(doc, lookup) == Some(Report(ExtractMetadata(m), ExtractPolicy(p), rows));
  }

  /** The whole output for a parse result: the rendered report, or the empty string
      when a required container is missing. */
  function ReportHtml(doc: Option<Node>, lookup: HostLookup): (s: string)
    ensures s == "" <==> MissingContainer(doc)
  {
    ExtractFailsIffMissingContainer(doc, lookup);
    match Extract(doc, lookup)
    case None => ""
    case Some(r) => RenderReport(r)
  }

  /** The output is empty exactly when the parse gave no tree or a container the
      generator dereferences is missing; otherwise it starts with the fixed header and
      ends by closing the records table and the document. */
  lemma ReportHtmlFrame(doc: Option<Node>, lookup: HostLookup)
    ensures ReportHtml(doc, lookup) == "" <==> MissingContainer(doc)
    ensures !MissingContainer(doc) ==>
      var html := ReportHtml(doc, lookup);
      |html| >= |HEADER| + |FOOTER| && html[..|HEADER|] == HEADER && html[|html| - |FOOTER|..] == FOOTER
  {
    ExtractFailsIffMissingContainer(doc, lookup);
    if !MissingContainer(doc) {
      var r := Extract(doc, lookup).value;
      FramedBy(HEADER, ReportBody(r), FOOTER);
    }
  }
}

=== FILE: report_model.dfy ===
/** What the report generator extracts from a parsed aggregate report: the metadata and
    policy tables, and the rows of the records table, or nothing when a required
    container element is missing (the source then returns an empty document). */
module ReportModel {
  import opened Wrappers
  import opened XmlTree
  import opened Classification

  datatype Metadata = Metadata(orgName: string, email: string, extraContactInfo: string, reportId: string)

  datatype Policy = Policy(domain: string, adkim: string, aspf: string, p: string, sp: string, pct: string)

  /** The three DKIM columns of a row: taken from one `dkim` entry, or N/A when the record has none. */
  datatype DkimColumns = NotApplicable | Dkim(domain: string, result: string, selector: string)

  /** One row of the records table. */
  datatype Row = Row(
    color: RowColor,
    recordNo: nat,
    sourceIp: string,
    hostname: Option<string>,
    count: string,
    spfDomain: string,
    spfResult: string,
    dkim: DkimColumns)

  datatype Report = Report(metadata: Metadata, policy: Policy, rows: seq<Row>)

  /** The fields of one `record` whose containers are all present. */
  datatype RecordFields = RecordFields(
    sourceIp: string, count: string, spfDomain: string, spfResult: string, dkims: seq<Node>)

  /** The reverse DNS answer for a record's source IP, supplied by the caller. It is
      keyed by the record number as well as the IP: each record makes a query of its
      own, so two records with the same IP may get different answers. */
  type HostLookup = (nat, string) -> Option<string>

  /** The text of the first child of `node` named `name`; "" when there is none. */
  function ChildText(node: Node, name: string): (s: string)
    ensures NoneNamed(node.children, name) ==> s == ""
  {
    TextContent(FindChild(node.children, name))
  }

  /** The text read for a name is the content of the first child carrying it. */
  lemma ChildTextOfFirst(node: Node, name: string, i: nat, c: string)
    requires i < |node.children| && node.children[i].name == name
    requires NoneNamed(node.children[..i], name)
    requires node.children[i].content == Some(c)
    ensures ChildText(node, name) == c
  {
    FindChildAt(node.children, name, i);
  }

  /** The metadata table's four values; a missing leaf reads as "". */
  function ExtractMetadata(m: Node): (r: Metadata)
    ensures NoneNamed(m.children, "org_name") ==> r.orgName == ""
    ensures NoneNamed(m.children, "email") ==> r.email == ""
    ensures NoneNamed(m.children, "extra_contact_info") ==> r.extraContactInfo == ""
    ensures NoneNamed(m.children, "report_id") ==> r.reportId == ""
  {
    Metadata(ChildText(m, "org_name"), ChildText(m, "email"), ChildText(m, "extra_contact_info"),
             ChildText(m, "report_id"))
  }

  /** The policy table's six values; a missing leaf reads as "". */
  function ExtractPolicy(p: Node): (r: Policy)
    ensures NoneNamed(p.children, "domain") ==> r.domain == ""
    ensures NoneNamed(p.children, "adkim") ==> r.adkim == ""
    ensures NoneNamed(p.children, "aspf") ==> r.aspf == ""
    ensures NoneNamed(p.children, "p") ==> r.p == ""
    ensures NoneNamed(p.children, "sp") ==> r.sp == ""
    ensures NoneNamed(p.children, "pct") ==> r.pct == ""
  {
    Policy(ChildText(p, "domain"), ChildText(p, "adkim"), ChildText(p, "aspf"), ChildText(p, "p"),
           ChildText(p, "sp"), ChildText(p, "pct"))
  }

  /** The DKIM columns of one `dkim` entry; its result column is the result classification reads. */
  function DkimColumnsOf(dkim: Node): (d: DkimColumns)
    ensures d.Dkim?
    ensures NoneNamed(dkim.children, "domain") ==> d.domain == ""
    ensures NoneNamed(dkim.children, "result") ==> d.result == ""
    ensures NoneNamed(dkim.children, "selector") ==> d.selector == ""
  {
    Dkim(ChildText(dkim, "domain"), ChildText(dkim, "result"), ChildText(dkim, "selector"))
  }

  /** A record lacks a container the source dereferences: its `row`, its `auth_results`,
      or the `spf` inside the first `auth_results`. */
  predicate RecordIncomplete(record: Node)
  {
    var cs := record.children;
    || NoneNamed(cs, "row")
    || NoneNamed(cs, "auth_results")
    || exists i :: 0 <= i < |cs| && cs[i].name == "auth_results" && NoneNamed(cs[..i], "auth_results") &&
         NoneNamed(cs[i].children, "spf")
  }

  /** The fields of a record, or None when one of its containers is missing. Missing
      leaves only give empty text. */
  function ExtractRecord(record: Node): (r: Option<RecordFields>)
    ensures r.Some? ==> forall i :: 0 <= i < |r.value.dkims| ==> r.value.dkims[i].name == "dkim"
    ensures r.Some? ==> FindChild(record.children, "auth_results").Some?
    ensures r.Some? ==>
      var auth := FindChild(record.children, "auth_results").value;
      && r.value.dkims == FilterChildren(auth.children, "dkim")
      && forall x :: x in r.value.dkims <==> x in auth.children && x.name == "dkim"
    ensures r.Some? ==> FindChild(record.children, "row").Some?
    ensures r.Some? ==>
      var row := FindChild(record.children, "row").value;
      && (NoneNamed(row.children, "source_ip") ==> r.value.sourceIp == "")
      && (NoneNamed(row.children, "count") ==> r.value.count == "")
    ensures r.Some? ==> FindChild(FindChild(record.children, "auth_results").value.children, "spf").Some?
    ensures r.Some? ==>
      var spf := FindChild(FindChild(record.children, "auth_results").value.children, "spf").value;
      && (NoneNamed(spf.children, "domain") ==> r.value.spfDomain == "")
      && (NoneNamed(spf.children, "result") ==> r.value.spfResult == "")
  {
    match FindChild(record.children, "row")
    case None => None
    case Some(row) =>
      match FindChild(record.children, "auth_results")
      case None => None
      case Some(auth) =>
        match FindChild(auth.children, "spf")
        case None => None
        case Some(spf) =>
          FilterChildrenExactly(auth.children, "dkim");
          Some(RecordFields(ChildText(row, "source_ip"), ChildText(row, "count"),
                            ChildText(spf, "domain"), ChildText(spf, "result"),
                            FilterChildren(auth.children, "dkim")))
  }

  /** A record's source IP is the content of the first `source_ip` leaf of its first `row`. */
  lemma SourceIpOfFirst(record: Node, row: Node, i: nat, c: string)
    requires FindChild(record.children, "row") == Some(row)
    requires i < |row.children| && row.children[i].name == "source_ip"
    requires NoneNamed(row.children[..i], "source_ip") && row.children[i].content == Some(c)
    ensures ExtractRecord(record).Some? ==> ExtractRecord(record).value.sourceIp == c
  {
    ChildTextOfFirst(row, "source_ip", i, c);
  }

  /** A record's SPF result, which decides its highlight, is the content of the first
      `result` leaf of the first `spf` in its first `auth_results`. */
  lemma SpfResultOfFirst(record: Node, auth: Node, spf: Node, i: nat, c: string)
    requires FindChild(record.children, "auth_results") == Some(auth)
    requires FindChild(auth.children, "spf") == Some(spf)
    requires i < |spf.children| && spf.children[i].name == "result"
    requires NoneNamed(spf.children[..i], "result") && spf.children[i].content == Some(c)
    ensures ExtractRecord(record).Some? ==> ExtractRecord(record).value.spfResult == c
  {
    ChildTextOfFirst(spf, "result", i, c);
  }

  /** The rows one complete record emits: one per DKIM entry in document order, or a
      single N/A row; all share the record's number and highlight. */
  function RowsOf(f: RecordFields, recordNo: nat, hostname: Option<string>): (rows: seq<Row>)
    ensures |rows| == if |f.dkims| == 0 then 1 else |f.dkims|
    ensures forall j :: 0 <= j < |rows| ==>
      && rows[j].recordNo == recordNo
      && rows[j].color == Classify(f.spfResult, f.dkims)
      && rows[j].sourceIp == f.sourceIp && rows[j].hostname == hostname && rows[j].count == f.count
      && rows[j].spfDomain == f.spfDomain && rows[j].spfResult == f.spfResult
    ensures |f.dkims| == 0 ==> rows[0].dkim == NotApplicable
    ensures forall j :: 0 <= j < |f.dkims| ==> rows[j].dkim == DkimColumnsOf(f.dkims[j])
  {
    var color := Classify(f.spfResult, f.dkims);
    if |f.dkims| == 0 then
      [Row(color, recordNo, f.sourceIp, hostname, f.count, f.spfDomain, f.spfResult, NotApplicable)]
    else
      seq(|f.dkims|, j requires 0 <= j < |f.dkims| =>
        Row(color, recordNo, f.sourceIp, hostname, f.count, f.spfDomain, f.spfResult,
            DkimColumnsOf(f.dkims[j])))
  }

  /** The DKIM Result cell of a record's rows shows "pass" exactly when that entry passes,
      so every DKIM row of a green record shows "pass". */
  lemma DkimResultCellShowsPass(f: RecordFields, recordNo: nat, hostname: Option<string>)
    ensures forall j :: 0 <= j < |f.dkims| ==>
      (RowsOf(f, recordNo, hostname)[j].dkim.result == "pass" <==> DkimPasses(f.dkims[j]))
    ensures Classify(f.spfResult, f.dkims) == Green ==>
      forall j :: 0 <= j < |f.dkims| ==> RowsOf(f, recordNo, hostname)[j].dkim.result == "pass"
  {
  }

  /** The rows of one record with its number, the host name looked up from its source IP. */
  function RecordRows(record: Node, recordNo: nat, lookup: HostLookup): (r: Option<seq<Row>>)
    ensures r.None? <==> RecordIncomplete(record)
    ensures r.Some? ==> |r.value| >= 1 && forall j :: 0 <= j < |r.value| ==> r.value[j].recordNo == recordNo
  {
    ExtractRecordFailsIffIncomplete(record);
    match ExtractRecord(record)
    case None => None
    case Some(f) => Some(RowsOf(f, recordNo, lookup(recordNo, f.sourceIp)))
  }

  /** The `record` children of the report root, in document order. */
  function Records(root: Node): (r: seq<Node>)
    ensures |r| <= |root.children|
    ensures forall x :: x in r <==> x in root.children && x.name == "record"
  {
    FilterChildrenExactly(root.children, "record");
    FilterChildren(root.children, "record")
  }

  /** The rows of all records, the k-th record (from 0) numbered k + 1; None as soon as
      any record is incomplete. */
  function AllRows(records: seq<Node>, lookup: HostLookup): (r: Option<seq<Row>>)
    ensures r.Some? ==> |r.value| >= |records|
    ensures r.Some? ==> forall j :: 0 <= j < |r.value| ==> 1 <= r.value[j].recordNo <= |records|
  {
    if |records| == 0 then
      Some([])
    else
      var n := |records|;
      match AllRows(records[..n - 1], lookup)
      case None => None
      case Some(prev) =>
        match RecordRows(records[n - 1], n, lookup)
        case None => None
        case Some(rows) => Some(prev + rows)
  }

  /** What the source extracts from a parse result: None when there is no tree or a
      required container is missing. */
  function Extract(doc: Option<Node>, lookup: HostLookup): (r: Option<Report>)
    ensures doc.None? ==> r.None?
    ensures r.Some? ==>
      !NoneNamed(doc.value.children, "report_metadata") && !NoneNamed(doc.value.children, "policy_published")
    ensures r.Some? ==> |r.value.rows| >= |Records(doc.value)|
    ensures r.Some? ==> forall j :: 0 <= j < |r.value.rows| ==> 1 <= r.value.rows[j].recordNo <= |Records(doc.value)|
  {
    if doc.None? then
      None
    else
      var root := doc.value;
      match FindChild(root.children, "report_metadata")
      case None => None
      case Some(m) =>
        match FindChild(root.children, "policy_published")
        case None => None
        case Some(p) =>
          match AllRows(Records(root), lookup)
          case None => None
          case Some(rows) => Some(Report(ExtractMetadata(m), ExtractPolicy(p), rows))
  }

  /** A container the source dereferences is missing somewhere in the document. */
  predicate MissingContainer(doc: Option<Node>)
  {
    || doc.None?
    || NoneNamed(doc.value.children, "report_metadata")
    || NoneNamed(doc.value.children, "policy_published")
    || exists k :: 0 <= k < |Records(doc.value)| && RecordIncomplete(Records(doc.value)[k])
  }

  /** The number of rows a record emits: one per DKIM entry, at least one. */
  function RowCount(f: RecordFields): nat
  {
    if |f.dkims| == 0 then 1 else |f.dkims|
  }

  /** The number of rows all complete records emit together. */
  function TotalRowCount(records: seq<Node>): nat
  {
    if |records| == 0 then
      0
    else
      var n := |records|;
      TotalRowCount(records[..n - 1]) +
        (match ExtractRecord(records[n - 1]) case None => 0 case Some(f) => RowCount(f))
  }

  /** The highlight of a complete record. */
  function RecordColor(record: Node): Option<RowColor>
  {
    match ExtractRecord(record)
    case None => None
    case Some(f) => Some(Classify(f.spfResult, f.dkims))
  }

  /** A record's fields are missing exactly when one of its containers is. */
  lemma ExtractRecordFailsIffIncomplete(record: Node)
    ensures ExtractRecord(record).None? <==> RecordIncomplete(record)
  {
    var cs := record.children;
    var auth := FindChild(cs, "auth_results");
    if auth.Some? {
      var first := FindChildIndex(cs, "auth_results");
      forall i' | 0 <= i' < |cs| && cs[i'].name == "auth_results" && NoneNamed(cs[..i'], "auth_results")
        ensures cs[i'] == auth.value
      {
        FindChildAt(cs, "auth_results", i');
      }
    }
  }

  /** Rows of all records fail exactly when the fields of some record are missing. */
  lemma {:induction false} AllRowsFailIffSomeRecordFails(records: seq<Node>, lookup: HostLookup)
    ensures AllRows(records, lookup).None? <==>
      exists k :: 0 <= k < |records| && ExtractRecord(records[k]).None?
  {
    if |records| > 0 {
      var n := |records|;
      var init := records[..n - 1];
      AllRowsFailIffSomeRecordFails(init, lookup);
      if AllRows(init, lookup).None? {
        var k :| 0 <= k < n - 1 && ExtractRecord(init[k]).None?;
        assert init[k] == records[k];
      } else if ExtractRecord(records[n - 1]).None? {
        assert AllRows(records, lookup).None?;
      } else {
        assert AllRows(records, lookup).Some?;
        forall k | 0 <= k < n
          ensures ExtractRecord(records[k]).Some?
        {
          if k < n - 1 {
            assert init[k] == records[k];
          }
        }
      }
    }
  }

  /** Processing one more record appends its rows. */
  lemma AllRowsStep(records: seq<Node>, i: nat, lookup: HostLookup, rows: seq<Row>, recordRows: seq<Row>)
    requires i < |records|
    requires AllRows(records[..i], lookup) == Some(rows)
    requires RecordRows(records[i], i + 1, lookup) == Some(recordRows)
    ensures AllRows(records[..i + 1], lookup) == Some(rows + recordRows)
  {
    assert records[..i + 1][..i] == records[..i];
    assert records[..i + 1][i] == records[i];
  }

  /** The extraction fails exactly when a required container is missing. */
  lemma ExtractFailsIffMissingContainer(doc: Option<Node>, lookup: HostLookup)
    ensures Extract(doc, lookup).None? <==> MissingContainer(doc)
  {
    if doc.Some? {
      var records := Records(doc.value);
      AllRowsFailIffSomeRecordFails(records, lookup);
      forall k | 0 <= k < |records|
        ensures ExtractRecord(records[k]).None? <==> RecordIncomplete(records[k])
      {
        ExtractRecordFailsIffIncomplete(records[k]);
      }
    }
  }

  /** The rows of a nonempty list of records are those of all but the last, followed by
      the rows of the last record: at least one, all numbered with the count of records
      and carrying that record's highlight. */
  lemma AllRowsLast(records: seq<Node>, lookup: HostLookup, rows: seq<Row>)
    returns (prev: seq<Row>, last: seq<Row>)
    requires |records| > 0 && AllRows(records, lookup) == Some(rows)
    ensures AllRows(records[..|records| - 1], lookup) == Some(prev)
    ensures rows == prev + last
    ensures |last| >= 1
    ensures |last| == RowCount(ExtractRecord(records[|records| - 1]).value)
    ensures forall j :: 0 <= j < |last| ==>
      last[j].recordNo == |records| && RecordColor(records[|records| - 1]) == Some(last[j].color)
  {
    prev := AllRows(records[..|records| - 1], lookup).value;
    var f := ExtractRecord(records[|records| - 1]).value;
    last := RowsOf(f, |records|, lookup(|records|, f.sourceIp));
  }

  /** Each record contributes one row per DKIM entry and at least one row. */
  lemma {:induction false} AllRowsCount(records: seq<Node>, lookup: HostLookup, rows: seq<Row>)
    ensures AllRows(records, lookup) == Some(rows) ==> |rows| == TotalRowCount(records)
    ensures AllRows(records, lookup) == Some(rows) ==> |rows| >= |records|
  {
    if |records| > 0 && AllRows(records, lookup) == Some(rows) {
      var prev, last := AllRowsLast(records, lookup, rows);
      AllRowsCount(records[..|records| - 1], lookup, prev);
    }
  }

  /** Record numbers run from 1 to n in row order, each row's number equal to or one
      more than the previous row's. */
  predicate NumberedOneTo(rows: seq<Row>, n: nat)
  {
    && (forall j :: 0 <= j < |rows| ==> 1 <= rows[j].recordNo <= n)
    && (forall j :: 0 < j < |rows| ==> rows[j - 1].recordNo <= rows[j].recordNo <= rows[j - 1].recordNo + 1)
    && (n > 0 ==> |rows| > 0 && rows[0].recordNo == 1 && rows[|rows| - 1].recordNo == n)
  }

  /** Row j of prev + last keeps its number bounds and its step from the row before. */
  lemma NumberedOneToAt(prev: seq<Row>, last: seq<Row>, n: nat, j: nat)
    requires n >= 1 && NumberedOneTo(prev, n - 1)
    requires |last| >= 1 && forall k :: 0 <= k < |last| ==> last[k].recordNo == n
    requires j < |prev + last|
    ensures 1 <= (prev + last)[j].recordNo <= n
    ensures j > 0 ==>
      (prev + last)[j - 1].recordNo <= (prev + last)[j].recordNo <= (prev + last)[j - 1].recordNo + 1
  {
    var rows := prev + last;
    if j < |prev| {
      assert rows[j] == prev[j];
      if j > 0 {
        assert rows[j - 1] == prev[j - 1];
      }
    } else {
      assert rows[j] == last[j - |prev|];
      if j > |prev| {
        assert rows[j - 1] == last[j - 1 - |prev|];
      } else if j > 0 {
        assert rows[j - 1] == prev[|prev| - 1];
      }
    }
  }

  /** Appending at least one row numbered n to rows numbered from 1 to n - 1 gives rows
      numbered from 1 to n. */
  lemma NumberedOneToExtend(prev: seq<Row>, last: seq<Row>, n: nat)
    requires n >= 1 && NumberedOneTo(prev, n - 1)
    requires |last| >= 1 && forall k :: 0 <= k < |last| ==> last[k].recordNo == n
    ensures NumberedOneTo(prev + last, n)
  {
    var rows := prev + last;
    forall j | 0 <= j < |rows|
      ensures 1 <= rows[j].recordNo <= n
      ensures j > 0 ==> rows[j - 1].recordNo <= rows[j].recordNo <= rows[j - 1].recordNo + 1
    {
      NumberedOneToAt(prev, last, n, j);
    }
    if n > 1 {
      assert rows[0] == prev[0];
    }
    assert rows[|rows| - 1] == last[|last| - 1];
  }

  /** Record numbers run from 1 to the number of records, in row order, each row's
      number equal to or one more than the previous row's. */
  lemma {:induction false} AllRowsNumbering(records: seq<Node>, lookup: HostLookup, rows: seq<Row>)
    ensures AllRows(records, lookup) == Some(rows) ==> NumberedOneTo(rows, |records|)
  {
    if |records| > 0 && AllRows(records, lookup) == Some(rows) {
      var prev, last := AllRowsLast(records, lookup, rows);
      AllRowsNumbering(records[..|records| - 1], lookup, prev);
      NumberedOneToExtend(prev, last, |records|);
    }
  }

  /** Every row's number designates a record, and the row carries that record's colour
      under the given colouring of records. */
  predicate ColorsFollow(records: seq<Node>, rows: seq<Row>, color: Node -> Option<RowColor>)
  {
    forall j :: 0 <= j < |rows| ==>
      1 <= rows[j].recordNo <= |records| && color(records[rows[j].recordNo - 1]) == Some(rows[j].color)
  }

  /** Every row's number designates a record, and the row carries that record's highlight. */
  predicate ColorsFollowRecords(records: seq<Node>, rows: seq<Row>)
  {
    ColorsFollow(records, rows, RecordColor)
  }

  /** Row j of prev + last carries the colour of the record its number designates. */
  lemma ColorsFollowAt(records: seq<Node>, prev: seq<Row>, last: seq<Row>, color: Node -> Option<RowColor>, j: nat)
    requires |records| > 0 && ColorsFollow(records[..|records| - 1], prev, color)
    requires forall j :: 0 <= j < |last| ==>
      last[j].recordNo == |records| && color(records[|records| - 1]) == Some(last[j].color)
    requires j < |prev + last|
    ensures 1 <= (prev + last)[j].recordNo <= |records|
    ensures color(records[(prev + last)[j].recordNo - 1]) == Some((prev + last)[j].color)
  {
    var rows := prev + last;
    if j < |prev| {
      var k := prev[j].recordNo - 1;
      assert rows[j] == prev[j];
      assert records[..|records| - 1][k] == records[k];
    } else {
      assert rows[j] == last[j - |prev|];
    }
  }

  /** Appending the rows of one more record, numbered after the others, keeps the
      colours in agreement. */
  lemma ColorsFollowExtend(records: seq<Node>, prev: seq<Row>, last: seq<Row>, color: Node -> Option<RowColor>)
    requires |records| > 0 && ColorsFollow(records[..|records| - 1], prev, color)
    requires forall j :: 0 <= j < |last| ==>
      last[j].recordNo == |records| && color(records[|records| - 1]) == Some(last[j].color)
    ensures ColorsFollow(records, prev + last, color)
  {
    var rows := prev + last;
    forall j | 0 <= j < |rows|
      ensures 1 <= rows[j].recordNo <= |records|
      ensures color(records[rows[j].recordNo - 1]) == Some(rows[j].color)
    {
      ColorsFollowAt(records, prev, last, color, j);
    }
  }

  /** Every row carries the highlight of the record its number designates. */
  lemma {:induction false} AllRowsColors(records: seq<Node>, lookup: HostLookup, rows: seq<Row>)
    ensures AllRows(records, lookup) == Some(rows) ==> ColorsFollowRecords(records, rows)
  {
    if |records| > 0 && AllRows(records, lookup) == Some(rows) {
      var prev, last := AllRowsLast(records, lookup, rows);
      AllRowsColors(records[..|records| - 1], lookup, prev);
      ColorsFollowExtend(records, prev, last, RecordColor);
    }
  }

  /** Some row carries record number k. */
  predicate Numbered(rows: seq<Row>, k: nat)
  {
    exists j :: 0 <= j < |rows| && rows[j].recordNo == k
  }

  /** Every record number from 1 to the number of records appears on some row. */
  lemma {:induction false} EveryRecordNumbered(records: seq<Node>, lookup: HostLookup, rows: seq<Row>)
    ensures AllRows(records, lookup) == Some(rows) ==> forall k :: 1 <= k <= |records| ==> Numbered(rows, k)
  {
    if |records| > 0 && AllRows(records, lookup) == Some(rows) {
      var n := |records|;
      var prev, last := AllRowsLast(records, lookup, rows);
      EveryRecordNumbered(records[..n - 1], lookup, prev);
      forall k | 1 <= k <= n
        ensures Numbered(rows, k)
      {
        if k < n {
          assert Numbered(prev, k);
          var j :| 0 <= j < |prev| && prev[j].recordNo == k;
          assert rows[j] == prev[j];
        } else {
          assert rows[|prev|] == last[0];
        }
      }
    }
  }
}

=== FILE: wrappers.dfy ===
/** The optional value used for absent nodes, absent text and a failed host name lookup. */
module Wrappers {

  datatype Option<+T> = None | Some(value: T)
}

=== FILE: xml_tree.dfy ===
/** The parsed report tree and the lookups the report generator performs on it. */
module XmlTree {
  import opened Wrappers

  /** An element of the parsed report: its name, its text content if it has any,
      and its child elements in document order. */
  datatype Node = Node(name: string, content: Option<string>, children: seq<Node>)

  /** True when no child in `children` carries `name`. */
  predicate NoneNamed(children: seq<Node>, name: string)
  {
    forall i :: 0 <= i < |children| ==> children[i].name != name
  }

  /** The text of a node that may be absent: its content when it has one, otherwise
      the empty string. An empty content is falsy in the source, and yields "" as well,
      which is the content itself. */
  function TextContent(node: Option<Node>): (s: string)
    ensures node.Some? && node.value.content.Some? ==> s == node.value.content.value
    ensures node.None? || node.value.content.None? ==> s == ""
  {
    if node.Some? && node.value.content.Some? && node.value.content.value != "" then
      node.value.content.value
    else
      ""
  }

  /** The first child named `name`, in document order; None when there is none. */
  function FindChild(children: seq<Node>, name: string): (r: Option<Node>)
    ensures r.None? <==> NoneNamed(children, name)
    ensures r.Some? ==> r.value.name == name
  {
    if |children| == 0 then
      None
    else if children[0].name == name then
      Some(children[0])
    else
      FindChild(children[1..], name)
  }

  /** The child found is the one at the first index that carries the name. */
  lemma {:induction false} FindChildAt(children: seq<Node>, name: string, i: nat)
    requires i < |children| && children[i].name == name && NoneNamed(children[..i], name)
    ensures FindChild(children, name) == Some(children[i])
  {
    if i > 0 {
      assert children[..i][0] == children[0];
      assert children[1..][..i - 1] == children[..i][1..];
      FindChildAt(children[1..], name, i - 1);
    }
  }

  /** When some child carries the name, the one found sits at the first such index. */
  lemma {:induction false} FindChildIndex(children: seq<Node>, name: string) returns (i: nat)
    requires !NoneNamed(children, name)
    ensures i < |children| && FindChild(children, name) == Some(children[i])
    ensures NoneNamed(children[..i], name)
  {
    if children[0].name == name {
      i := 0;
    } else {
      var k := FindChildIndex(children[1..], name);
      i := k + 1;
      assert children[..i] == [children[0]] + children[1..][..k];
    }
  }

  /** All children named `name`, in document order. */
  function FilterChildren(children: seq<Node>, name: string): (r: seq<Node>)
    ensures |r| <= |children|
    ensures forall j :: 0 <= j < |r| ==> r[j].name == name
  {
    if |children| == 0 then
      []
    else
      (if children[0].name == name then [children[0]] else []) + FilterChildren(children[1..], name)
  }

  /** Filtering keeps exactly the children that carry the name. */
  lemma {:induction false} FilterChildrenMembers(children: seq<Node>, name: string, x: Node)
    ensures x in FilterChildren(children, name) <==> x in children && x.name == name
  {
    if |children| > 0 {
      FilterChildrenMembers(children[1..], name, x);
      assert children == [children[0]] + children[1..];
    }
  }

  /** The children kept are exactly those that carry the name. */
  lemma FilterChildrenExactly(children: seq<Node>, name: string)
    ensures forall x :: x in FilterChildren(children, name) <==> x in children && x.name == name
  {
    forall x {
      FilterChildrenMembers(children, name, x);
    }
  }

  /** Filtering distributes over concatenation: the kept children keep their document order. */
  lemma {:induction false} FilterChildrenAppend(a: seq<Node>, b: seq<Node>, name: string)
    ensures FilterChildren(a + b, name) == FilterChildren(a, name) + FilterChildren(b, name)
  {
    if |a| == 0 {
      assert a + b == b;
    } else {
      assert (a + b)[1..] == a[1..] + b;
      FilterChildrenAppend(a[1..], b, name);
    }
  }

  /** A child keeps its place: a single child is kept exactly when it carries the name. */
  lemma FilterChildrenSingle(x: Node, name: string)
    ensures FilterChildren([x], name) == if x.name == name then [x] else []
  {
    assert [x][1..] == [];
  }

  /** The first child named `name` is the head of the children named `name`. */
  lemma {:induction false} FindChildIsFirstOfFilter(children: seq<Node>, name: string)
    ensures FindChild(children, name) ==
      if FilterChildren(children, name) == [] then None else Some(FilterChildren(children, name)[0])
  {
    if |children| > 0 && children[0].name != name {
      FindChildIsFirstOfFilter(children[1..], name);
    }
  }
}
